=== FILE: README.md ===
# OAuth gateway of common-mcp-server, modelled in Dafny

This project models the stateless OAuth gateway of `common_mcp_server`
(`src/common_mcp_server/oauth.py`). The gateway lets a browser-based MCP client
complete an authorization-code-with-PKCE flow against a Keycloak realm without the
server storing anything. Every handler of the router returned by
`create_oauth_router` is modelled as a pure function of the immutable
`OAuthRouterConfig`, the already-parsed request and, for the two proxies, the
outcome of the upstream HTTP call. That outcome is an input value:
`Reply(status, bytes)` or `NetworkError(message)`.

Modules, one per file:

- `Wrappers` (`wrappers.dfy`): `Option`.
- `Text` (`text.dfy`): `startswith` and `sep.join`, which the handlers use, and a split on one character, which models how the receiving side reads a query. Two round-trip lemmas tie join and split together.
- `OrderedDict` (`ordered_dict.dfy`): Python's `dict(pairs)`. A key keeps its first position and takes its last value.
- `Http` (`http.dfy`): JSON values, responses, the outgoing call record and the upstream outcome.
- `RouterConfig` (`config.dfy`): `OAuthRouterConfig` and the four Keycloak endpoint URLs derived from it.
- `Discovery` (`discovery.dfy`): the RFC 8414 authorization-server metadata and the RFC 9728 protected-resource metadata.
- `Authorize` (`authorize.dfy`): the 302 redirect. It covers the query round trip, the finding below and the corrected escaping.
- `Proxy` (`proxy.dfy`): the token proxy and the userinfo proxy with its bearer-header guard.
- `Registration` (`registration.dfy`): dynamic client registration after RFC 7591.
- `Router` (`router.dfy`): route-to-handler dispatch (`Router.Handle`, the routes of `src/common_mcp_server/oauth.py:99-308`) and the CORS preflight. The `Router` lemmas in the table are stated about `Router.Handle`. It also proves that requests making no upstream call do not depend on the upstream outcome.

Points where the code departs from the standards it follows or from its own documentation; the model follows the code:

- Section 3.3 of RFC 8414 requires the `issuer` of the authorization-server document to be the identifier the metadata URL was built from. The protected-resource document names `resource_url` as the authorization server, but the code announces the Keycloak realm URL as `issuer`. `Discovery.IssuerMatchesAdvertisedServer` shows the two agree only when the resource URL is the realm URL.
- Registration answers with the `invalid_client_metadata` error of section 3.2.2 of RFC 7591 for every body it cannot read as a JSON object. That covers text that fails to parse, and also a JSON array, string, number, boolean or null, none of which has `.get`. It never checks the submitted metadata itself.
- The docstring at `src/common_mcp_server/oauth.py:43` says `service_name` feeds the registration response, but no handler reads it.

## Model

| member | source | states |
|---|---|---|
| RouterConfig.UpstreamUrlShape | src/common_mcp_server/oauth.py:52-75 | every upstream URL is `keycloak_url + "/realms/" + realm + "/protocol/openid-connect/" + segment` and lies under the realm base and under `keycloak_url` |
| RouterConfig.EndpointRoundTrip | src/common_mcp_server/oauth.py:57-75 | the endpoint (auth, token, userinfo, certs) can be read back from its URL for every configuration |
| RouterConfig.EndpointsDistinct | src/common_mcp_server/oauth.py:57-75 | the auth, token, userinfo and JWKS URLs are pairwise distinct |
| Discovery.AuthorizationServerMetadata | src/common_mcp_server/oauth.py:99-136 | 200; issuer is the realm base; authorize, token and register endpoints are the resource URL plus `/oauth/...`; `jwks_uri` is Keycloak's certs URL; only the `code` response type; PKCE method S256 only; no client authentication |
| Discovery.ProtectedResourceMetadata | src/common_mcp_server/oauth.py:138-155 | 200; `resource` is the resource URL plus `/mcp`; `authorization_servers` is exactly `[resource_url]`; bearer tokens go in the header |
| Discovery.MetadataFieldsNonEmpty | src/common_mcp_server/oauth.py:108-114 | issuer, authorization, token and JWKS fields are non-empty strings for every configuration, and `response_types_supported` (REQUIRED by section 2 of RFC 8414) is a non-empty list |
| Discovery.EndpointsUnderAdvertisedServer | src/common_mcp_server/oauth.py:108-152 | authorize, token and register endpoints lie under the advertised authorization server's `/oauth/`; the JWKS URL lies under the Keycloak URL |
| Discovery.IssuerMatchesAdvertisedServer | src/common_mcp_server/oauth.py:108-152 | the announced issuer equals the advertised authorization server if and only if the resource URL is the realm URL |
| OrderedDict.Insert | src/common_mcp_server/oauth.py:164 | `d[k] = v` keeps an existing key in place and appends a new one, and keeps keys distinct |
| OrderedDict.InsertLookup | src/common_mcp_server/oauth.py:164 | after `d[k] = v`, `k` reads `v` and every other key reads as before |
| OrderedDict.FromPairsKeys | src/common_mcp_server/oauth.py:164 | `dict(pairs)` holds exactly the keys of the pairs |
| OrderedDict.FromPairsLookup | src/common_mcp_server/oauth.py:164 | `dict(pairs)` maps each key to the value of its last occurrence |
| OrderedDict.FromPairsDistinct | src/common_mcp_server/oauth.py:164 | pairs without repeated keys pass through `dict(...)` unchanged, order included |
| Text.SplitJoin | src/common_mcp_server/oauth.py:169 | splitting a join of separator-free pieces gives the pieces back |
| Text.JoinSplit | src/common_mcp_server/oauth.py:169 | joining the pieces of a split gives the string back, and no piece holds the separator |
| Authorize.Authorize | src/common_mcp_server/oauth.py:157-172 | always 302; `location` starts with the Keycloak auth URL plus `?`; with no parameters it is that prefix with a bare `?` |
| Authorize.QueryRoundTrip | src/common_mcp_server/oauth.py:169 | parameters free of `&` and `=` are recovered exactly and in order by splitting the joined query on `&` then `=` |
| Authorize.RedirectPreservesPlainParams | src/common_mcp_server/oauth.py:160-170 | for distinct keys whose keys and values hold neither `&` nor `=`, the redirect's query splits back into exactly the forwarded pairs, in order |
| Authorize.RedirectPreservesParams | src/common_mcp_server/oauth.py:160-170 | for distinct keys whose keys and values hold none of `%`, `&`, `=`, `+`, `#`, the redirect's query reads back as exactly the forwarded pairs, in order, both by splitting alone and by splitting and percent-decoding |
| Authorize.CollidingQueryStrings | src/common_mcp_server/oauth.py:169 | the one parameter `(k, a & b = v)` formats to the same query text as the two parameters `(k, a)`, `(b, v)` |
| Authorize.DelimiterInValueMergesParams | src/common_mcp_server/oauth.py:164-170 | as written, for any ordinary `(k, a)`, `(b, v)` with different keys, the single value `a & b = v` yields the same redirect as the two parameters, and the redirect reads back as the two |
| Authorize.PercentInValueDecoded | src/common_mcp_server/oauth.py:164-170 | as written, a value `%26` (sent by the client as `%2526`) is forwarded raw and decoded by the receiving side as `&` |
| Authorize.UnescapeEscape | src/common_mcp_server/oauth.py:169 | decoding the escaped text gives the original text back |
| Authorize.EscapedQueryRoundTrip | src/common_mcp_server/oauth.py:169 | with escaping, every parameter list is recovered exactly from its query string |
| Authorize.EscapedRedirectPreservesParams | src/common_mcp_server/oauth.py:160-170 | the corrected redirect preserves every de-duplicated parameter list, with no condition on values |
| Proxy.TokenCall | src/common_mcp_server/oauth.py:187-194 | the token call is a POST to Keycloak's token URL with a url-encoded form content type |
| Proxy.TokenForwardsForm | src/common_mcp_server/oauth.py:182-194 | the token call carries every submitted form field with its last value; a form without repeats goes upstream verbatim |
| Proxy.TokenResponse | src/common_mcp_server/oauth.py:187-209 | an upstream reply is returned with its status and body, and no headers of its own, whatever the status; a network failure is 502 `server_error` with the failure message; a 200 only ever comes from an upstream 200 |
| Proxy.BearerHeaderShape | src/common_mcp_server/oauth.py:270 | exactly the headers `"Bearer " + token` pass the guard; lower-case `bearer`, `Bearer` without the space and a missing header do not |
| Proxy.UserinfoCall | src/common_mcp_server/oauth.py:268-282 | no upstream call unless the header passes the guard; otherwise a GET to Keycloak's userinfo URL carrying the identical header value |
| Proxy.UserinfoResponse | src/common_mcp_server/oauth.py:268-294 | 401 `invalid_token` when the guard fails; otherwise the upstream reply's status and body relayed unchanged with no headers of its own, or 502 `server_error` on network failure |
| Proxy.UserinfoRejectsBeforeCall | src/common_mcp_server/oauth.py:268-274 | a rejected header makes no call and gets the same 401 whatever upstream would have answered |
| Registration.Register | src/common_mcp_server/oauth.py:223-259 | 201 exactly for a JSON object body, with the shared client id, an empty secret, auth method `none`, the submitted or default `client_name` and `redirect_uris`, and `no-store`; otherwise 400 `invalid_client_metadata`; both carry `Access-Control-Allow-Origin: *` |
| Registration.RegisterIgnoresOtherMetadata | src/common_mcp_server/oauth.py:224-239 | object bodies that agree on `client_name` and `redirect_uris` get identical responses |
| Registration.SharedClient | src/common_mcp_server/oauth.py:230-239 | any two successful registrations agree on every field but the echoed name and redirect URIs |
| Registration.RegisterEchoExample | src/common_mcp_server/oauth.py:225-234 | a worked example of the registration contract: registering client `X` with redirect `https://a/cb` gives 201, the shared client id, an empty secret and `X`, `https://a/cb` echoed |
| Router.Preflight | src/common_mcp_server/oauth.py:296-308 | the preflight is an empty 200 allowing any origin, the methods `GET, POST, OPTIONS` and the headers `Content-Type, Authorization` |
| Router.UpstreamCall | src/common_mcp_server/oauth.py:174-294 | only the token and userinfo routes can call upstream, and the token route always does, at the token URL |
| Router.NoCallNoDependence | src/common_mcp_server/oauth.py:99-308 | a request that makes no upstream call gets the same response whatever the upstream outcome |
| Router.NetworkFailureIs502 | src/common_mcp_server/oauth.py:204-209 | wherever a call is made, a network failure is answered with 502 |
| Router.ReplyRelayed | src/common_mcp_server/oauth.py:284-288 | wherever a call is made, the upstream reply's status and body come back unchanged |
| Router.BrowserFacingAllowAnyOrigin | src/common_mcp_server/oauth.py:241-308 | registration, on success and on failure, and every preflight carry `Access-Control-Allow-Origin: *` |

## Findings

| source | as written | input that shows it | evidently intended | confidence | as-written member | corrected member |
|---|---|---|---|---|---|---|
| src/common_mcp_server/oauth.py:169-170 | query values arrive percent-decoded and are joined raw with `&` and `=`, so the characters `&`, `=`, `%`, `+` and `#` inside a key or value reach Keycloak unescaped | the query `state=a%26b%3Dc` becomes one value `a&b=c` and is forwarded as `state=a&b=c`, which Keycloak reads as `state=a` plus an injected `b=c`; likewise `state=%2526` is forwarded as `state=%26` and read as `&`, a `+` is read as a space, and a `#` cuts off every parameter after it | keys and values are re-encoded before joining (for example with `urlencode`), so every parameter reaches Keycloak unchanged, as the docstring promises | medium, not executed | Authorize.DelimiterInValueMergesParams | Authorize.EscapedRedirectPreservesParams |

`Authorize.PercentInValueDecoded` shows the `%` case: a forwarded value `%26` is decoded on arrival as `&`.
The handler `Authorize.Authorize` keeps the code's behaviour. `Authorize.EscapedRedirectUrl`
is the corrected URL. It percent-encodes the five characters that change how a query
is read (`%`, `&`, `=`, `+`, `#`). `Authorize.EscapedQueryRoundTrip` proves that
splitting and decoding then recovers every parameter list.

## Left out

- FastAPI routing, `Request` parsing and `Response` serialisation: each request is taken already parsed. The query and form are ordered lists of decoded pairs, the registration body is parsed JSON or a parse failure, and the `Authorization` header is an optional string. Header-name case-insensitivity and repeated headers are the framework's concern.
- The `httpx` calls and their 30-second timeout: the call is described by an `Outbound` record and its result is an input. Only failures that raise `httpx.RequestError` (caught at lines 204 and 289) are modelled, as `NetworkError`. Any other exception from the call is not caught by the handler and propagates to the framework as a server error. Examples are an invalid URL built from the configuration, or a header value that cannot be encoded. That outcome lies outside the model.
- Logging: it has no effect on any response.
- The `location` header quoting that the redirect response class applies to the URL: the model states the URL the handler builds.
- Percent-encoding of the original request: keys and values are taken as the framework decodes them.
- JSON floating-point numbers: a registration body holding `NaN` or `Infinity` parses but makes the 400 path fire when the response is serialised. That path is not modelled because numbers are integers here.
- Registration.Register: strings here are sequences of Unicode scalar values, so a body holding a lone UTF-16 surrogate, such as `{"client_name": "\ud800"}`, cannot be expressed. Python parses such a body, but encoding the response raises inside the `try`, so the handler answers 400 `invalid_client_metadata` although the body is a JSON object. The contract's "201 exactly for a JSON object body" covers only bodies without surrogates.
- Registration.Register: the 400 description for an unparsable body is the parser's message taken as an input, not the exact text Python produces.
- How a receiver treats `+` (as a space) and `#` (as the start of a fragment) in a query: `Authorize.DecodeQuery` is a simplified reader, so these two effects named under "## Findings" are stated there but not proved.
- Authorize.DecodeQuery: it decodes only the five escapes `%25`, `%26`, `%3D`, `%2B` and `%23`, in upper case, and rejects a piece holding a second `=`. A full receiver decodes every `%XX` in either case and splits a piece at its first `=`. So the model does not show that, as written, a value holding any other escape is also altered (a client's `%2541` is forwarded as `%41` and read as `A`), nor that a real receiver keeps a later `=` inside the value. Every query the lemmas read back holds no other `%` and one `=` per piece, where the two readers agree.
- Content-type headers set by the response classes: the `Body` variant says whether a body is JSON.
- The MCP server, identity resolution, JSON-RPC dispatch, the JWKS cache and the PAT configuration: `server.py`, `auth.py` and `protocol.py` are not part of this model. `src/common_mcp_server/__init__.py` only re-exports them, and `examples/basic.py` is demo code on top of them.

=== FILE: authorize.dfy ===
/**
 * `GET /oauth/authorize`: a 302 redirect to Keycloak's authorization endpoint
 * (the redirect leg of section 4.1.1 of RFC 6749, carrying the PKCE parameters of
 * RFC 7636). Its query lists the incoming parameters in order, each as the key, an
 * equals sign and the value, separated by ampersands, with no re-encoding. The
 * parameters arrive already percent-decoded and are collapsed by `dict(...)` first.
 */
module Authorize {
  import opened Wrappers
  import opened Text
  import opened Http
  import opened RouterConfig
  import OrderedDict

  type Param = (string, string)

  /** One parameter as query text: the key, an equals sign, the value, none of them encoded. */
  function FormatParam(p: Param): string {
    p.0 + "=" + p.1
  }

  function FormatParams(ps: seq<Param>): (pieces: seq<string>)
    ensures |pieces| == |ps|
    ensures forall i :: 0 <= i < |ps| ==> pieces[i] == FormatParam(ps[i])
  {
    seq(|ps|, i requires 0 <= i < |ps| => FormatParam(ps[i]))
  }

  /** All parameters as query text, in order, separated by ampersands. */
  function QueryString(ps: seq<Param>): string {
    Join(FormatParams(ps), '&')
  }

  /** The URL the handler redirects to: the parameters go through `dict(...)` and are then joined. */
  function RedirectUrl(c: OAuthRouterConfig, query: seq<Param>): string {
    c.AuthUrl() + "?" + QueryString(OrderedDict.FromPairs(query))
  }

  /** The handler: always a 302 whose `location` is the upstream authorization URL plus the query. */
  function Authorize(c: OAuthRouterConfig, query: seq<Param>): (r: Response)
    ensures r.status == 302
    ensures r.Header("location").Some?
    ensures StartsWith(r.Header("location").value, c.UpstreamUrl(Auth) + "?")
    ensures query == [] ==> r.Header("location") == Some(c.UpstreamUrl(Auth) + "?")
  {
    var url := RedirectUrl(c, query);
    assert url[..|c.AuthUrl() + "?"|] == c.AuthUrl() + "?";
    assert query == [] ==> QueryString(OrderedDict.FromPairs(query)) == "";
    assert query == [] ==> url == c.AuthUrl() + "?";
    Response(302, map["location" := url], NoBody)
  }

  // ----- Reading a query back -----

  /** A piece read as one key/value pair: it must split on `=` into exactly two halves, else it is rejected. */
  function ParseParam(piece: string): Option<Param> {
    var halves := Split(piece, '=');
    if |halves| == 2 then Some((halves[0], halves[1])) else None
  }

  function ParseParams(pieces: seq<string>): (r: Option<seq<Param>>)
    ensures r.Some? ==> |r.value| == |pieces|
  {
    if |pieces| == 0 then Some([])
    else
      match ParseParam(pieces[0])
      case None => None
      case Some(p) =>
        match ParseParams(pieces[1..])
        case None => None
        case Some(rest) => Some([p] + rest)
  }

  /** Split a query on `&`, then each piece on `=`; the empty query holds no pairs. */
  function ParseQuery(q: string): Option<seq<Param>> {
    if q == "" then Some([]) else ParseParams(Split(q, '&'))
  }

  /** Neither the key nor the value holds one of the query delimiters. */
  predicate Plain(p: Param) {
    '&' !in p.0 && '&' !in p.1 && '=' !in p.0 && '=' !in p.1
  }

  predicate AllPlain(ps: seq<Param>) {
    forall i :: 0 <= i < |ps| ==> Plain(ps[i])
  }

  lemma FormatParseParam(p: Param)
    requires Plain(p)
    ensures ParseParam(FormatParam(p)) == Some(p)
    ensures '&' !in FormatParam(p)
  {
    assert FormatParam(p) == Join([p.0, p.1], '=');
    SplitJoin([p.0, p.1], '=');
  }

  lemma {:induction false} FormatParseParams(ps: seq<Param>)
    requires AllPlain(ps)
    ensures ParseParams(FormatParams(ps)) == Some(ps)
    decreases |ps|
  {
    if |ps| > 0 {
      FormatParseParam(ps[0]);
      assert FormatParams(ps)[1..] == FormatParams(ps[1..]);
      FormatParseParams(ps[1..]);
      assert [ps[0]] + ps[1..] == ps;
    }
  }

  /** Parameters free of `&` and `=` are recovered exactly, in order, from the query string. */
  lemma QueryRoundTrip(ps: seq<Param>)
    requires AllPlain(ps)
    ensures ParseQuery(QueryString(ps)) == Some(ps)
  {
    if |ps| > 0 {
      var pieces := FormatParams(ps);
      forall i | 0 <= i < |pieces|
        ensures '&' !in pieces[i]
      {
        FormatParseParam(ps[i]);
      }
      SplitJoin(pieces, '&');
      FormatParseParam(ps[0]);
      assert pieces[0] != "";
      assert QueryString(ps) != "" by {
        if |ps| == 1 {
        } else {
          assert |QueryString(ps)| >= |pieces[0]|;
        }
      }
      FormatParseParams(ps);
    }
  }

  /** The string holds none of the characters in `Reserved`. */
  predicate NoReserved(s: string) {
    forall i :: 0 <= i < |s| ==> !Reserved(s[i])
  }

  /** Neither the key nor the value holds a reserved character. */
  predicate Unreserved(p: Param) {
    NoReserved(p.0) && NoReserved(p.1)
  }

  predicate AllUnreserved(ps: seq<Param>) {
    forall i :: 0 <= i < |ps| ==> Unreserved(ps[i])
  }

  /**
   * For distinct keys whose keys and values hold neither `&` nor `=`, the text after
   * `auth_url + "?"` in the redirect splits back into exactly the forwarded pairs, in order.
   */
  lemma RedirectPreservesPlainParams(c: OAuthRouterConfig, query: seq<Param>)
    requires OrderedDict.DistinctKeys(query)
    requires AllPlain(query)
    ensures var url := Authorize(c, query).Header("location").value;
      ParseQuery(url[|c.UpstreamUrl(Auth) + "?"|..]) == Some(query)
  {
    RedirectOfDistinct(c, query);
    QueryRoundTrip(query);
  }

  /**
   * "Preserving all query parameters", as far as the code delivers it: for distinct keys
   * whose keys and values hold none of `%`, `&`, `=`, `+`, `#`, the text after
   * `auth_url + "?"` in the redirect reads back as exactly the forwarded pairs, in the same
   * order, both by splitting alone and by splitting and percent-decoding.
   */
  lemma RedirectPreservesParams(c: OAuthRouterConfig, query: seq<Param>)
    requires OrderedDict.DistinctKeys(query)
    requires AllUnreserved(query)
    ensures var url := Authorize(c, query).Header("location").value;
      && ParseQuery(url[|c.UpstreamUrl(Auth) + "?"|..]) == Some(query)
      && DecodeQuery(url[|c.UpstreamUrl(Auth) + "?"|..]) == Some(query)
  {
    OrderedDict.FromPairsDistinct(query);
    var prefix := c.AuthUrl() + "?";
    assert (prefix + QueryString(query))[|prefix|..] == QueryString(query);
    forall i | 0 <= i < |query|
      ensures Plain(query[i])
    {
      assert forall j :: 0 <= j < |query[i].0| ==> !Reserved(query[i].0[j]);
      assert forall j :: 0 <= j < |query[i].1| ==> !Reserved(query[i].1[j]);
    }
    QueryRoundTrip(query);
    forall i | 0 <= i < |query|
      ensures UnescapeParams(query)[i] == query[i]
    {
      UnescapeNoPercent(query[i].0);
      UnescapeNoPercent(query[i].1);
    }
    assert UnescapeParams(query) == query;
  }

  // ----- The delimiters inside values (see the README's Findings) -----

  /** A value `a & b = v` formats to the same query text as the two parameters `(k, a)` and `(b, v)`. */
  lemma CollidingQueryStrings(k: string, a: string, b: string, v: string)
    ensures QueryString([(k, a + "&" + b + "=" + v)]) == QueryString([(k, a), (b, v)])
  {
  }

  /**
   * As written, a value holding `&` and `=` is indistinguishable from extra parameters:
   * whenever `(k, a)` and `(b, v)` are ordinary parameters with different keys, the single
   * parameter `(k, a & b = v)` produces the same redirect as the two of them, and the
   * redirect reads back as the two, so `b = v` is injected.
   */
  lemma DelimiterInValueMergesParams(c: OAuthRouterConfig, k: string, a: string, b: string, v: string)
    requires k != b
    requires Plain((k, a)) && Plain((b, v))
    ensures RedirectUrl(c, [(k, a + "&" + b + "=" + v)]) == RedirectUrl(c, [(k, a), (b, v)])
    ensures ParseQuery(QueryString([(k, a + "&" + b + "=" + v)])) == Some([(k, a), (b, v)])
  {
    var single: seq<Param> := [(k, a + "&" + b + "=" + v)];
    var smuggled: seq<Param> := [(k, a), (b, v)];
    SmallDistinct(k, a + "&" + b + "=" + v, b, v);
    SmallDistinct(k, a, b, v);
    CollidingQueryStrings(k, a, b, v);
    RedirectOfDistinct(c, single);
    RedirectOfDistinct(c, smuggled);
    assert AllPlain(smuggled);
    QueryRoundTrip(smuggled);
  }

  /** One pair, and two pairs with different keys, have distinct keys. */
  lemma SmallDistinct(k: string, v1: string, b: string, v2: string)
    ensures OrderedDict.DistinctKeys([(k, v1)])
    ensures k != b ==> OrderedDict.DistinctKeys([(k, v1), (b, v2)])
  {
    assert OrderedDict.Keys([(k, v1)]) == [k];
    assert OrderedDict.Keys([(k, v1), (b, v2)]) == [k, b];
  }

  /** A query without repeated keys is joined as given, right after `auth_url + "?"`. */
  lemma RedirectOfDistinct(c: OAuthRouterConfig, query: seq<Param>)
    requires OrderedDict.DistinctKeys(query)
    ensures RedirectUrl(c, query) == c.UpstreamUrl(Auth) + "?" + QueryString(query)
    ensures RedirectUrl(c, query)[|c.UpstreamUrl(Auth) + "?"|..] == QueryString(query)
  {
    OrderedDict.FromPairsDistinct(query);
    var prefix := c.AuthUrl() + "?";
    assert (prefix + QueryString(query))[|prefix|..] == QueryString(query);
  }

  /** The characters that must not reach the upstream query raw. */
  predicate Reserved(ch: char) {
    ch == '%' || ch == '&' || ch == '=' || ch == '+' || ch == '#'
  }

  /** The two hexadecimal digits of a reserved character's `%XX` escape. */
  function HexCode(ch: char): string
    requires Reserved(ch)
  {
    if ch == '%' then "25"
    else if ch == '&' then "26"
    else if ch == '=' then "3D"
    else if ch == '+' then "2B"
    else "23"
  }

  /** The reserved character a two-digit code stands for, if any. */
  function HexDecode(code: string): (r: Option<char>)
    ensures r.Some? ==> Reserved(r.value) && HexCode(r.value) == code
  {
    if code == "25" then Some('%')
    else if code == "26" then Some('&')
    else if code == "3D" then Some('=')
    else if code == "2B" then Some('+')
    else if code == "23" then Some('#')
    else None
  }

  /** Percent-encode the reserved characters, leave every other character as it is. */
  function Escape(s: string): (r: string)
    ensures forall ch :: ch in r && Reserved(ch) ==> ch == '%'
    decreases |s|
  {
    if |s| == 0 then ""
    else (if Reserved(s[0]) then "%" + HexCode(s[0]) else [s[0]]) + Escape(s[1..])
  }

  /** Decode the escapes `Escape` produces. */
  function Unescape(s: string): string
    decreases |s|
  {
    if |s| == 0 then ""
    else if |s| >= 3 && s[0] == '%' && HexDecode(s[1..3]).Some? then
      [HexDecode(s[1..3]).value] + Unescape(s[3..])
    else [s[0]] + Unescape(s[1..])
  }

  lemma UnescapeReserved(ch: char, tail: string)
    requires Reserved(ch)
    ensures Unescape("%" + HexCode(ch) + tail) == [ch] + Unescape(tail)
  {
  }

  lemma UnescapePlain(ch: char, tail: string)
    requires !Reserved(ch)
    ensures Unescape([ch] + tail) == [ch] + Unescape(tail)
  {
  }

  /** Text without `%` decodes to itself. */
  lemma {:induction false} UnescapeNoPercent(s: string)
    requires '%' !in s
    ensures Unescape(s) == s
    decreases |s|
  {
    if |s| > 0 {
      assert '%' !in s[1..];
      UnescapeNoPercent(s[1..]);
      assert [s[0]] + s[1..] == s;
    }
  }

  /**
   * As written, an escape sequence inside a value survives the join raw (it is free of
   * `&` and `=`), so the receiving side decodes it: a value `%26`, which the client sent
   * as `%2526`, arrives at Keycloak as `&`.
   */
  lemma PercentInValueDecoded(c: OAuthRouterConfig, k: string)
    requires Plain((k, "")) && '%' !in k
    ensures var url := RedirectUrl(c, [(k, "%26")]);
      DecodeQuery(url[|c.UpstreamUrl(Auth) + "?"|..]) == Some([(k, "&")])
  {
    var query: seq<Param> := [(k, "%26")];
    SmallDistinct(k, "%26", k, "%26");
    RedirectOfDistinct(c, query);
    assert Plain(query[0]) by { assert '&' !in "%26" && '=' !in "%26"; }
    DecodePlain(query);
    UnescapeNoPercent(k);
    UnescapeAmpersand();
    UnescapeSingle(k, "%26");
  }

  /** Decoding a single parameter decodes its key and its value. */
  lemma UnescapeSingle(k: string, v: string)
    ensures UnescapeParams([(k, v)]) == [(Unescape(k), Unescape(v))]
  {
  }

  /** A query string without delimiters in its values decodes to the unescaped parameters. */
  lemma DecodePlain(ps: seq<Param>)
    requires AllPlain(ps)
    ensures DecodeQuery(QueryString(ps)) == Some(UnescapeParams(ps))
  {
    QueryRoundTrip(ps);
  }

  /** The escape `%26` decodes to `&`. */
  lemma UnescapeAmpersand()
    ensures Unescape("%26") == "&"
  {
    var e := "%26";
    assert e[0] == '%' && e[1..3] == "26" && e[3..] == "";
  }

  lemma {:induction false} UnescapeEscape(s: string)
    ensures Unescape(Escape(s)) == s
    decreases |s|
  {
    if |s| > 0 {
      var tail := Escape(s[1..]);
      UnescapeEscape(s[1..]);
      if Reserved(s[0]) {
        UnescapeReserved(s[0], tail);
      } else {
        UnescapePlain(s[0], tail);
      }
      assert [s[0]] + s[1..] == s;
    }
  }

  function EscapeParam(p: Param): (e: Param)
    ensures Plain(e)
  {
    (Escape(p.0), Escape(p.1))
  }

  function UnescapeParams(ps: seq<Param>): (r: seq<Param>)
    ensures |r| == |ps|
  {
    seq(|ps|, i requires 0 <= i < |ps| => (Unescape(ps[i].0), Unescape(ps[i].1)))
  }

  /** The query with every key and value escaped: the escaped query the handler should send. */
  function EscapedQueryString(ps: seq<Param>): string {
    QueryString(seq(|ps|, i requires 0 <= i < |ps| => EscapeParam(ps[i])))
  }

  /** The corrected redirect URL. */
  function EscapedRedirectUrl(c: OAuthRouterConfig, query: seq<Param>): string {
    c.AuthUrl() + "?" + EscapedQueryString(OrderedDict.FromPairs(query))
  }

  /**
   * A simplified reader of a query: split as `ParseQuery` does (rejecting a piece with a
   * second `=`), then decode only the five escapes `%25`, `%26`, `%3D`, `%2B` and `%23`.
   * A full decoder would also decode every other `%XX` and keep a later `=` inside the
   * value; on the queries the lemmas below read back, the two agree.
   */
  function DecodeQuery(q: string): Option<seq<Param>> {
    match ParseQuery(q)
    case None => None
    case Some(ps) => Some(UnescapeParams(ps))
  }

  /** With escaping, EVERY parameter list is recovered exactly, whatever its values hold. */
  lemma EscapedQueryRoundTrip(ps: seq<Param>)
    ensures DecodeQuery(EscapedQueryString(ps)) == Some(ps)
  {
    var escaped := seq(|ps|, i requires 0 <= i < |ps| => EscapeParam(ps[i]));
    assert AllPlain(escaped);
    QueryRoundTrip(escaped);
    forall i | 0 <= i < |ps|
      ensures UnescapeParams(escaped)[i] == ps[i]
    {
      UnescapeEscape(ps[i].0);
      UnescapeEscape(ps[i].1);
    }
    assert UnescapeParams(escaped) == ps;
  }

  /** The corrected redirect keeps every parameter of a de-duplicated query, with no precondition on values. */
  lemma EscapedRedirectPreservesParams(c: OAuthRouterConfig, query: seq<Param>)
    requires OrderedDict.DistinctKeys(query)
    ensures var url := EscapedRedirectUrl(c, query);
      DecodeQuery(url[|c.UpstreamUrl(Auth) + "?"|..]) == Some(query)
  {
    OrderedDict.FromPairsDistinct(query);
    var prefix := c.AuthUrl() + "?";
    assert (prefix + EscapedQueryString(query))[|prefix|..] == EscapedQueryString(query);
    EscapedQueryRoundTrip(query);
  }
}

=== FILE: config.dfy ===
/**
 * `OAuthRouterConfig`: the immutable configuration every handler reads, and the
 * upstream Keycloak endpoint URLs it derives by string concatenation.
 */
module RouterConfig {
  import opened Wrappers
  import opened Text

  /** The four OpenID Connect endpoints of a Keycloak realm. */
  datatype Endpoint = Auth | Token | Userinfo | Certs {

    /** The last path segment of the endpoint under `/protocol/openid-connect/`. */
    function Segment(): string {
      match this
      case Auth => "auth"
      case Token => "token"
      case Userinfo => "userinfo"
      case Certs => "certs"
    }
  }

  const DefaultServiceName: string := "Originate Service"

  datatype OAuthRouterConfig = OAuthRouterConfig(
    resourceUrl: string,
    keycloakUrl: string,
    keycloakRealm: string,
    keycloakClientId: string,
    serviceName: string := DefaultServiceName)
  {
    /** The realm base URL; it is also the issuer the discovery document announces. */
    function KeycloakBase(): string {
      keycloakUrl + "/realms/" + keycloakRealm
    }

    /** The part every upstream endpoint URL shares. */
    function ProtocolPrefix(): string {
      KeycloakBase() + "/protocol/openid-connect/"
    }

    function UpstreamUrl(e: Endpoint): string {
      ProtocolPrefix() + e.Segment()
    }

    function AuthUrl(): string { UpstreamUrl(Auth) }
    function TokenUrl(): string { UpstreamUrl(Token) }
    function UserinfoUrl(): string { UpstreamUrl(Userinfo) }
    function JwksUrl(): string { UpstreamUrl(Certs) }

    /** Which upstream endpoint a URL names, if any: the inverse of `UpstreamUrl`. */
    function EndpointOf(url: string): Option<Endpoint> {
      if !StartsWith(url, ProtocolPrefix()) then None
      else
        var tail := url[|ProtocolPrefix()|..];
        if tail == "auth" then Some(Auth)
        else if tail == "token" then Some(Token)
        else if tail == "userinfo" then Some(Userinfo)
        else if tail == "certs" then Some(Certs)
        else None
    }
  }

  /** Every upstream URL is `keycloak_url + "/realms/" + realm + "/protocol/openid-connect/" + segment`. */
  lemma UpstreamUrlShape(c: OAuthRouterConfig, e: Endpoint)
    ensures c.UpstreamUrl(e) == c.keycloakUrl + "/realms/" + c.keycloakRealm + "/protocol/openid-connect/" + e.Segment()
    ensures StartsWith(c.UpstreamUrl(e), c.KeycloakBase())
    ensures StartsWith(c.UpstreamUrl(e), c.keycloakUrl)
  {
  }

  /** The endpoint can be read back from its URL. */
  lemma EndpointRoundTrip(c: OAuthRouterConfig, e: Endpoint)
    ensures c.EndpointOf(c.UpstreamUrl(e)) == Some(e)
  {
  }

  /** The four upstream URLs are pairwise distinct, whatever the configuration. */
  lemma EndpointsDistinct(c: OAuthRouterConfig, e1: Endpoint, e2: Endpoint)
    requires e1 != e2
    ensures c.UpstreamUrl(e1) != c.UpstreamUrl(e2)
  {
    EndpointRoundTrip(c, e1);
    EndpointRoundTrip(c, e2);
  }
}

=== FILE: discovery.dfy ===
/**
 * The two discovery documents: authorization-server metadata in the shape of
 * section 2 of RFC 8414 and protected-resource metadata in the shape of
 * section 2 of RFC 9728. Both are fixed functions of the configuration.
 */
module Discovery {
  import opened Wrappers
  import opened Text
  import opened Http
  import opened RouterConfig

  /** `GET /.well-known/oauth-authorization-server`. */
  function AuthorizationServerMetadata(c: OAuthRouterConfig): (r: Response)
    ensures r.status == 200 && r.headers == map[]
    ensures r.Field("issuer") == Some(JString(c.KeycloakBase()))
    ensures r.Field("authorization_endpoint") == Some(JString(c.resourceUrl + "/oauth/authorize"))
    ensures r.Field("token_endpoint") == Some(JString(c.resourceUrl + "/oauth/token"))
    ensures r.Field("registration_endpoint") == Some(JString(c.resourceUrl + "/oauth/register"))
    ensures r.Field("jwks_uri") == Some(JString(c.UpstreamUrl(Certs)))
    ensures r.Field("response_types_supported") == Some(Strings(["code"]))
    ensures r.Field("code_challenge_methods_supported") == Some(Strings(["S256"]))
    ensures r.Field("token_endpoint_auth_methods_supported") == Some(Strings(["none"]))
  {
    JsonResponse(200, map[
      "issuer" := JString(c.KeycloakBase()),
      "authorization_endpoint" := JString(c.resourceUrl + "/oauth/authorize"),
      "token_endpoint" := JString(c.resourceUrl + "/oauth/token"),
      "registration_endpoint" := JString(c.resourceUrl + "/oauth/register"),
      "jwks_uri" := JString(c.JwksUrl()),
      "response_types_supported" := Strings(["code"]),
      "grant_types_supported" := Strings(["authorization_code", "refresh_token"]),
      "code_challenge_methods_supported" := Strings(["S256"]),
      "token_endpoint_auth_methods_supported" := Strings(["none"]),
      "scopes_supported" := Strings(["openid", "profile", "email", "offline_access"]),
      "subject_types_supported" := Strings(["public"]),
      "id_token_signing_alg_values_supported" := Strings(["RS256"]),
      "claims_supported" := Strings(["sub", "iss", "aud", "exp", "iat", "email",
                                     "email_verified", "name", "preferred_username"]),
      "resource_parameter_supported" := JBool(true),
      "service_documentation" := JString(c.resourceUrl + "/docs")
    ], map[])
  }

  /** `GET /.well-known/oauth-protected-resource`. */
  function ProtectedResourceMetadata(c: OAuthRouterConfig): (r: Response)
    ensures r.status == 200 && r.headers == map[]
    ensures r.Field("resource") == Some(JString(c.resourceUrl + "/mcp"))
    ensures r.Field("authorization_servers") == Some(Strings([c.resourceUrl]))
    ensures r.Field("bearer_methods_supported") == Some(Strings(["header"]))
    ensures r.Field("mcp_endpoints") == Some(Strings([c.resourceUrl + "/mcp"]))
  {
    JsonResponse(200, map[
      "resource" := JString(c.resourceUrl + "/mcp"),
      "authorization_servers" := Strings([c.resourceUrl]),
      "bearer_methods_supported" := Strings(["header"]),
      "resource_signing_alg_values_supported" := Strings(["RS256"]),
      "scopes_supported" := Strings(["openid", "profile", "email"]),
      "resource_documentation" := JString(c.resourceUrl + "/docs"),
      "mcp_endpoints" := Strings([c.resourceUrl + "/mcp"])
    ], map[])
  }

  /** A string-valued field that is present and not empty. */
  predicate NonEmptyString(f: Option<Json>) {
    f.Some? && f.value.JString? && |f.value.s| > 0
  }

  /**
   * The issuer, the two endpoints the authorization-code flow uses and the key set are
   * present and non-empty for every configuration, even one whose URLs are all empty
   * strings; the REQUIRED `response_types_supported` of section 2 of RFC 8414 is a
   * non-empty list.
   */
  lemma MetadataFieldsNonEmpty(c: OAuthRouterConfig)
    ensures NonEmptyString(AuthorizationServerMetadata(c).Field("issuer"))
    ensures NonEmptyString(AuthorizationServerMetadata(c).Field("authorization_endpoint"))
    ensures NonEmptyString(AuthorizationServerMetadata(c).Field("token_endpoint"))
    ensures NonEmptyString(AuthorizationServerMetadata(c).Field("jwks_uri"))
    ensures var f := AuthorizationServerMetadata(c).Field("response_types_supported");
      f.Some? && f.value.JArray? && |f.value.items| > 0
  {
  }

  /**
   * Every endpoint the client is sent to for the browser and token legs is a URL under the
   * resource URL the protected-resource document names as its authorization server, while
   * the signing keys are fetched from Keycloak itself.
   */
  lemma EndpointsUnderAdvertisedServer(c: OAuthRouterConfig)
    ensures var server := c.resourceUrl;
      && ProtectedResourceMetadata(c).Field("authorization_servers") == Some(Strings([server]))
      && (forall name :: name in {"authorization_endpoint", "token_endpoint", "registration_endpoint"} ==>
            var f := AuthorizationServerMetadata(c).Field(name);
            f.Some? && f.value.JString? && StartsWith(f.value.s, server + "/oauth/"))
      && StartsWith(AuthorizationServerMetadata(c).Field("jwks_uri").value.s, c.keycloakUrl)
  {
    var m := AuthorizationServerMetadata(c);
    var p := c.resourceUrl + "/oauth/";
    assert c.resourceUrl + "/oauth/authorize" == p + "authorize";
    assert c.resourceUrl + "/oauth/token" == p + "token";
    assert c.resourceUrl + "/oauth/register" == p + "register";
    assert (p + "authorize")[..|p|] == p;
    assert (p + "token")[..|p|] == p;
    assert (p + "register")[..|p|] == p;
    UpstreamUrlShape(c, Certs);
  }

  /**
   * The issuer announced in the authorization-server document equals the authorization
   * server named in the protected-resource document only when the resource URL happens
   * to be the Keycloak realm URL.
   */
  lemma IssuerMatchesAdvertisedServer(c: OAuthRouterConfig)
    ensures AuthorizationServerMetadata(c).Field("issuer").value.s ==
              ProtectedResourceMetadata(c).Field("authorization_servers").value.items[0].s
            <==> c.resourceUrl == c.KeycloakBase()
  {
  }
}

=== FILE: http.dfy ===
/**
 * The request/response vocabulary of the gateway: JSON documents, HTTP responses,
 * the outgoing call a proxy makes, and the outcome of that call. The network call
 * itself is not modelled: its outcome is an input of the handlers that need one.
 */
module Http {
  import opened Wrappers

  newtype byte = b: int | 0 <= b < 256

  /** A parsed JSON value. Objects are Python dicts, so keys are unique. */
  datatype Json =
    | JNull
    | JBool(b: bool)
    | JNumber(n: int)
    | JString(s: string)
    | JArray(items: seq<Json>)
    | JObject(fields: map<string, Json>)

  /** A JSON array of strings, as the documents use for their `*_supported` lists. */
  function Strings(ss: seq<string>): (j: Json)
    ensures j.JArray? && |j.items| == |ss|
    ensures forall i :: 0 <= i < |ss| ==> j.items[i] == JString(ss[i])
  {
    JArray(seq(|ss|, i requires 0 <= i < |ss| => JString(ss[i])))
  }

  type Headers = map<string, string>

  /** What a response carries: nothing, a JSON document, or bytes relayed as `application/json`. */
  datatype Body =
    | NoBody
    | JsonBody(doc: Json)
    | RawJson(content: seq<byte>)

  datatype Response = Response(status: int, headers: Headers, body: Body) {

    /** The named top-level field of a JSON-object body. */
    function Field(name: string): Option<Json> {
      if body.JsonBody? && body.doc.JObject? && name in body.doc.fields
      then Some(body.doc.fields[name]) else None
    }

    /** The value of a header this response sets. */
    function Header(name: string): Option<string> {
      if name in headers then Some(headers[name]) else None
    }
  }

  /** A response whose body is the JSON object `fields`, with the given status and headers. */
  function JsonResponse(status: int, fields: map<string, Json>, headers: Headers): (r: Response)
    ensures r.status == status && r.headers == headers
    ensures forall name :: name in fields ==> r.Field(name) == Some(fields[name])
  {
    Response(status, headers, JsonBody(JObject(fields)))
  }

  datatype Method = Get | Post

  /** The request a proxy sends upstream; `form` is the url-encoded body of a POST. */
  datatype Outbound = Outbound(verb: Method, url: string, headers: Headers, form: seq<(string, string)>)

  /** What came back from an upstream call: a reply, or a transport failure (`httpx.RequestError`). */
  datatype Upstream =
    | Reply(status: int, content: seq<byte>)
    | NetworkError(message: string)
}

=== FILE: ordered_dict.dfy ===
/**
 * Python's `dict(pairs)` over a list of key/value pairs, as `dict(request.query_params)`
 * and `dict(form_data)` build it: a key keeps the position of its first appearance and
 * takes the value of its last one. A dictionary is kept as a sequence of pairs with
 * distinct keys, in insertion order.
 */
module OrderedDict {
  import opened Wrappers

  /** The keys of a pair sequence, in order. */
  function Keys<K, V>(d: seq<(K, V)>): (ks: seq<K>)
    ensures |ks| == |d|
    ensures forall i :: 0 <= i < |d| ==> ks[i] == d[i].0
  {
    if |d| == 0 then [] else [d[0].0] + Keys(d[1..])
  }

  /** No element occurs twice. */
  ghost predicate Distinct<K>(ks: seq<K>) {
    forall i, j :: 0 <= i < j < |ks| ==> ks[i] != ks[j]
  }

  /** No key occurs twice. */
  ghost predicate DistinctKeys<K, V>(d: seq<(K, V)>) {
    Distinct(Keys(d))
  }

  /** `d.get(k)`: the value of the first pair with key `k`. */
  function Lookup<K(==), V>(d: seq<(K, V)>, k: K): (r: Option<V>)
    ensures r.None? <==> k !in Keys(d)
  {
    if |d| == 0 then None
    else if d[0].0 == k then Some(d[0].1)
    else
      assert Keys(d) == [d[0].0] + Keys(d[1..]);
      Lookup(d[1..], k)
  }

  /** The value of the last pair with key `k`, searching from the back. */
  ghost function LastValue<K, V>(ps: seq<(K, V)>, k: K): Option<V>
  {
    if |ps| == 0 then None
    else if ps[|ps| - 1].0 == k then Some(ps[|ps| - 1].1)
    else LastValue(ps[..|ps| - 1], k)
  }

  /** `d[k] = v`: an existing key keeps its place and gets the new value; a new key goes last. */
  function Insert<K(==), V>(d: seq<(K, V)>, k: K, v: V): (r: seq<(K, V)>)
    ensures Keys(r) == if k in Keys(d) then Keys(d) else Keys(d) + [k]
  {
    if |d| == 0 then [(k, v)]
    else if d[0].0 == k then
      assert ([(k, v)] + d[1..])[1..] == d[1..];
      [(k, v)] + d[1..]
    else
      var tail := Insert(d[1..], k, v);
      assert ([d[0]] + tail)[1..] == tail;
      [d[0]] + tail
  }

  /** `d[k] = v` never creates a second entry for a key. */
  lemma InsertDistinct<K, V>(d: seq<(K, V)>, k: K, v: V)
    requires DistinctKeys(d)
    ensures DistinctKeys(Insert(d, k, v))
  {
  }

  /** After `d[k] = v`, `k` reads back as `v` and every other key reads as before. */
  lemma {:induction false} InsertLookup<K, V>(d: seq<(K, V)>, k: K, v: V, k': K)
    ensures Lookup(Insert(d, k, v), k') == if k' == k then Some(v) else Lookup(d, k')
  {
    if |d| > 0 && d[0].0 != k {
      InsertLookup(d[1..], k, v, k');
    }
  }

  /** `dict(ps)`: insert the pairs in order. */
  function FromPairs<K(==), V>(ps: seq<(K, V)>): (d: seq<(K, V)>)
    ensures DistinctKeys(d)
  {
    if |ps| == 0 then []
    else
      var init := FromPairs(ps[..|ps| - 1]);
      InsertDistinct(init, ps[|ps| - 1].0, ps[|ps| - 1].1);
      Insert(init, ps[|ps| - 1].0, ps[|ps| - 1].1)
  }

  /** Every key of the dictionary is a key of the input and every input key is present. */
  lemma {:induction false} FromPairsKeys<K, V>(ps: seq<(K, V)>, k: K)
    ensures k in Keys(FromPairs(ps)) <==> k in Keys(ps)
  {
    if |ps| > 0 {
      var init := ps[..|ps| - 1];
      FromPairsKeys(init, k);
      KeysAppend(init, ps[|ps| - 1]);
      assert init + [ps[|ps| - 1]] == ps;
    }
  }

  /** The dictionary maps each key to the value of its LAST occurrence in the input. */
  lemma {:induction false} FromPairsLookup<K, V>(ps: seq<(K, V)>, k: K)
    ensures Lookup(FromPairs(ps), k) == LastValue(ps, k)
  {
    if |ps| > 0 {
      FromPairsLookup(ps[..|ps| - 1], k);
      InsertLookup(FromPairs(ps[..|ps| - 1]), ps[|ps| - 1].0, ps[|ps| - 1].1, k);
    }
  }

  /** Input already free of duplicate keys passes through unchanged, order included. */
  lemma {:induction false} FromPairsDistinct<K, V>(ps: seq<(K, V)>)
    requires DistinctKeys(ps)
    ensures FromPairs(ps) == ps
  {
    if |ps| > 0 {
      var init := ps[..|ps| - 1];
      var last := ps[|ps| - 1];
      assert init + [last] == ps;
      KeysAppend(init, last);
      assert Keys(init) == Keys(ps)[..|ps| - 1];
      assert DistinctKeys(init);
      FromPairsDistinct(init);
      assert Keys(ps)[|ps| - 1] == last.0;
      assert last.0 !in Keys(init);
      InsertNew(init, last.0, last.1);
    }
  }

  /** Appending a pair appends its key. */
  lemma KeysAppend<K, V>(d: seq<(K, V)>, p: (K, V))
    ensures Keys(d + [p]) == Keys(d) + [p.0]
  {
  }

  /** Inserting a key that is not yet present appends it. */
  lemma {:induction false} InsertNew<K, V>(d: seq<(K, V)>, k: K, v: V)
    requires k !in Keys(d)
    ensures Insert(d, k, v) == d + [(k, v)]
  {
    if |d| > 0 {
      assert Keys(d) == [d[0].0] + Keys(d[1..]);
      InsertNew(d[1..], k, v);
      assert [d[0]] + (d[1..] + [(k, v)]) == d + [(k, v)];
    }
  }
}

=== FILE: proxy.dfy ===
/**
 * The two relaying endpoints: `POST /oauth/token`, which forwards the form to
 * Keycloak's token endpoint, and `GET /oauth/userinfo` (the UserInfo endpoint of
 * section 5.3 of OpenID Connect Core 1.0), which first checks for a bearer header.
 * Each is split into the call it makes upstream and the response it builds from
 * the call's outcome.
 */
module Proxy {
  import opened Wrappers
  import opened Text
  import opened Http
  import opened RouterConfig
  import OrderedDict

  /** An upstream reply passed on as is: same status, same bytes, served as JSON. */
  function Relay(status: int, content: seq<byte>): Response {
    Response(status, map[], RawJson(content))
  }

  // ----- Token -----

  /** The upstream call of the token endpoint: the form, as `dict(form)`, POSTed url-encoded. */
  function TokenCall(c: OAuthRouterConfig, form: seq<(string, string)>): (o: Outbound)
    ensures o.verb == Post && o.url == c.UpstreamUrl(Token)
    ensures o.headers == map["Content-Type" := "application/x-www-form-urlencoded"]
  {
    Outbound(Post, c.TokenUrl(),
             map["Content-Type" := "application/x-www-form-urlencoded"],
             OrderedDict.FromPairs(form))
  }

  /**
   * The token call carries every submitted form field with its last submitted value,
   * and a form without repeated fields goes upstream verbatim, order included.
   */
  lemma TokenForwardsForm(c: OAuthRouterConfig, form: seq<(string, string)>, field: string)
    ensures OrderedDict.Lookup(TokenCall(c, form).form, field) == OrderedDict.LastValue(form, field)
    ensures OrderedDict.DistinctKeys(form) ==> TokenCall(c, form).form == form
  {
    OrderedDict.FromPairsLookup(form, field);
    if OrderedDict.DistinctKeys(form) {
      OrderedDict.FromPairsDistinct(form);
    }
  }

  /** The token endpoint's answer for an upstream outcome. */
  function TokenResponse(outcome: Upstream): (r: Response)
    ensures outcome.Reply? ==>
      r.status == outcome.status && r.body == RawJson(outcome.content) && r.headers == map[]
    ensures outcome.NetworkError? ==>
      && r.status == 502
      && r.Field("error") == Some(JString("server_error"))
      && r.Field("error_description") == Some(JString(outcome.message))
    ensures r.status == 200 ==> outcome.Reply? && outcome.status == 200
  {
    match outcome
    case Reply(status, content) => Relay(status, content)
    case NetworkError(message) =>
      JsonResponse(502, map["error" := JString("server_error"),
                            "error_description" := JString(message)], map[])
  }

  // ----- Userinfo -----

  /** `auth_header` is present, non-empty and starts with exactly `"Bearer "`. */
  predicate BearerHeader(auth: Option<string>) {
    auth.Some? && auth.value != "" && StartsWith(auth.value, "Bearer ")
  }

  /** The accepted headers are exactly `"Bearer "` followed by anything, compared case-sensitively. */
  lemma BearerHeaderShape(token: string, h: string)
    ensures BearerHeader(Some("Bearer " + token))
    ensures BearerHeader(Some(h)) ==> h == "Bearer " + h[7..]
    ensures !BearerHeader(Some("bearer " + token)) && !BearerHeader(Some("Bearer"))
    ensures !BearerHeader(None)
  {
  }

  /** The upstream call of the userinfo endpoint, or `None` when the header is rejected first. */
  function UserinfoCall(c: OAuthRouterConfig, auth: Option<string>): (o: Option<Outbound>)
    ensures o.None? <==> !BearerHeader(auth)
    ensures o.Some? ==> o.value == Outbound(Get, c.UpstreamUrl(Userinfo), map["Authorization" := auth.value], [])
  {
    if !BearerHeader(auth) then None
    else Some(Outbound(Get, c.UserinfoUrl(), map["Authorization" := auth.value], []))
  }

  /** The userinfo endpoint's answer. */
  function UserinfoResponse(c: OAuthRouterConfig, auth: Option<string>, outcome: Upstream): (r: Response)
    ensures !BearerHeader(auth) ==>
      r.status == 401 && r.Field("error") == Some(JString("invalid_token"))
    ensures BearerHeader(auth) && outcome.Reply? ==>
      r.status == outcome.status && r.body == RawJson(outcome.content) && r.headers == map[]
    ensures BearerHeader(auth) && outcome.NetworkError? ==>
      r.status == 502 && r.Field("error") == Some(JString("server_error"))
  {
    if UserinfoCall(c, auth).None? then
      JsonResponse(401, map["error" := JString("invalid_token")], map[])
    else
      match outcome
      case Reply(status, content) => Relay(status, content)
      case NetworkError(_) => JsonResponse(502, map["error" := JString("server_error")], map[])
  }

  /** A rejected header is answered without consulting upstream: every outcome gives the same 401. */
  lemma UserinfoRejectsBeforeCall(c: OAuthRouterConfig, auth: Option<string>, u1: Upstream, u2: Upstream)
    requires !BearerHeader(auth)
    ensures UserinfoCall(c, auth).None?
    ensures UserinfoResponse(c, auth, u1) == UserinfoResponse(c, auth, u2)
    ensures UserinfoResponse(c, auth, u1).status == 401
  {
  }
}

=== FILE: registration.dfy ===
/**
 * `POST /oauth/register`, dynamic client registration after RFC 7591: every caller
 * gets the one pre-provisioned public client, with its own `client_name` and
 * `redirect_uris` echoed back (success response of section 3.2.1), and a body that
 * cannot be read as a JSON object gets the error response of section 3.2.2.
 */
module Registration {
  import opened Wrappers
  import opened Http
  import opened RouterConfig

  /** The request body: JSON that failed to parse (with the parser's message), or the parsed value. */
  datatype RegistrationBody = Unparsable(reason: string) | Parsed(doc: Json)

  const DefaultClientName: string := "MCP Client"

  /** The CORS header both outcomes carry. */
  const AllowAnyOrigin: Headers := map["Access-Control-Allow-Origin" := "*"]

  /** Python's name for the type `json.loads` produces for a value. */
  function PythonTypeName(j: Json): string {
    match j
    case JNull => "NoneType"
    case JBool(_) => "bool"
    case JNumber(_) => "int"
    case JString(_) => "str"
    case JArray(_) => "list"
    case JObject(_) => "dict"
  }

  /** The submitted value of a field, or `default` when the body does not hold it. */
  function GetOr(fields: map<string, Json>, key: string, default: Json): Json {
    if key in fields then fields[key] else default
  }

  /** The message of the exception that ends the handler's `try` block, if any. */
  function Failure(body: RegistrationBody): Option<string> {
    match body
    case Unparsable(reason) => Some(reason)
    case Parsed(JObject(_)) => None
    case Parsed(doc) => Some("'" + PythonTypeName(doc) + "' object has no attribute 'get'")
  }

  function Register(c: OAuthRouterConfig, body: RegistrationBody): (r: Response)
    ensures r.status == 201 || r.status == 400
    ensures r.status == 201 <==> body.Parsed? && body.doc.JObject?
    ensures r.Header("Access-Control-Allow-Origin") == Some("*")
    ensures r.status == 201 ==>
      && r.Field("client_id") == Some(JString(c.keycloakClientId))
      && r.Field("client_secret") == Some(JString(""))
      && r.Field("token_endpoint_auth_method") == Some(JString("none"))
      && r.Field("client_name") == Some(GetOr(body.doc.fields, "client_name", JString(DefaultClientName)))
      && r.Field("redirect_uris") == Some(GetOr(body.doc.fields, "redirect_uris", JArray([])))
      && r.Header("Cache-Control") == Some("no-store")
    ensures r.status == 400 ==>
      && r.Field("error") == Some(JString("invalid_client_metadata"))
      && r.Field("error_description").Some?
      && r.Field("error_description").value.JString?
  {
    match Failure(body)
    case Some(message) =>
      JsonResponse(400, map["error" := JString("invalid_client_metadata"),
                            "error_description" := JString(message)], AllowAnyOrigin)
    case None =>
      var fields := body.doc.fields;
      JsonResponse(201, map[
        "client_id" := JString(c.keycloakClientId),
        "client_secret" := JString(""),
        "client_name" := GetOr(fields, "client_name", JString(DefaultClientName)),
        "redirect_uris" := GetOr(fields, "redirect_uris", JArray([])),
        "grant_types" := Strings(["authorization_code", "refresh_token"]),
        "response_types" := Strings(["code"]),
        "token_endpoint_auth_method" := JString("none"),
        "application_type" := JString("web")
      ], AllowAnyOrigin + map["Cache-Control" := "no-store"])
  }

  /**
   * The requested metadata beyond `client_name` and `redirect_uris` is ignored: two
   * object bodies that agree on those two fields get identical responses.
   */
  lemma RegisterIgnoresOtherMetadata(c: OAuthRouterConfig, f1: map<string, Json>, f2: map<string, Json>)
    requires GetOr(f1, "client_name", JString(DefaultClientName)) == GetOr(f2, "client_name", JString(DefaultClientName))
    requires GetOr(f1, "redirect_uris", JArray([])) == GetOr(f2, "redirect_uris", JArray([]))
    ensures Register(c, Parsed(JObject(f1))) == Register(c, Parsed(JObject(f2)))
  {
  }

  /** Every successful registration hands back the same client, whoever asks. */
  lemma SharedClient(c: OAuthRouterConfig, b1: RegistrationBody, b2: RegistrationBody, field: string)
    requires Register(c, b1).status == 201 && Register(c, b2).status == 201
    requires field !in {"client_name", "redirect_uris"}
    ensures Register(c, b1).Field(field) == Register(c, b2).Field(field)
  {
  }

  /**
   * A worked example of `Register`'s contract: the registration of a body naming client
   * `X` with the single redirect URI `https://a/cb`.
   */
  lemma RegisterEchoExample(c: OAuthRouterConfig)
    ensures var r := Register(c, Parsed(JObject(map["client_name" := JString("X"),
                                                    "redirect_uris" := Strings(["https://a/cb"])])));
      && r.status == 201
      && r.Field("client_id") == Some(JString(c.keycloakClientId))
      && r.Field("client_secret") == Some(JString(""))
      && r.Field("client_name") == Some(JString("X"))
      && r.Field("redirect_uris") == Some(Strings(["https://a/cb"]))
  {
  }
}

=== FILE: router.dfy ===
/**
 * The router `create_oauth_router` returns: which handler answers which request,
 * the CORS preflight shared by the three browser-facing POST/redirect paths, and
 * which requests consult upstream at all.
 */
module Router {
  import opened Wrappers
  import opened Http
  import opened RouterConfig
  import Discovery
  import Authorize
  import Proxy
  import Registration

  /** The paths that answer `OPTIONS`. */
  datatype PreflightPath = RegisterPath | TokenPath | AuthorizePath

  /** A request to one of the gateway's routes, already parsed by the web framework. */
  datatype Request =
    | AuthorizationServerMetadata
    | ProtectedResourceMetadata
    | AuthorizeRedirect(query: seq<(string, string)>)
    | TokenExchange(form: seq<(string, string)>)
    | Register(body: Registration.RegistrationBody)
    | Userinfo(authorization: Option<string>)
    | Options(path: PreflightPath)

  const PreflightHeaders: Headers := map[
    "Access-Control-Allow-Origin" := "*",
    "Access-Control-Allow-Methods" := "GET, POST, OPTIONS",
    "Access-Control-Allow-Headers" := "Content-Type, Authorization"]

  /** `oauth_options`: an empty 200 that allows any origin. */
  function Preflight(): (r: Response)
    ensures r.status == 200 && r.body == NoBody
    ensures r.Header("Access-Control-Allow-Origin") == Some("*")
    ensures r.Header("Access-Control-Allow-Methods") == Some("GET, POST, OPTIONS")
    ensures r.Header("Access-Control-Allow-Headers") == Some("Content-Type, Authorization")
  {
    Response(200, PreflightHeaders, NoBody)
  }

  /** The upstream call a request makes, if any. */
  function UpstreamCall(c: OAuthRouterConfig, req: Request): (o: Option<Outbound>)
    ensures o.Some? ==> req.TokenExchange? || req.Userinfo?
    ensures req.TokenExchange? ==> o.Some? && o.value.url == c.UpstreamUrl(Token)
  {
    match req
    case TokenExchange(form) => Some(Proxy.TokenCall(c, form))
    case Userinfo(auth) => Proxy.UserinfoCall(c, auth)
    case _ => None
  }

  /** The response to a request, given what upstream answered (ignored when no call is made). */
  function Handle(c: OAuthRouterConfig, req: Request, outcome: Upstream): Response {
    match req
    case AuthorizationServerMetadata => Discovery.AuthorizationServerMetadata(c)
    case ProtectedResourceMetadata => Discovery.ProtectedResourceMetadata(c)
    case AuthorizeRedirect(query) => Authorize.Authorize(c, query)
    case TokenExchange(_) => Proxy.TokenResponse(outcome)
    case Register(body) => Registration.Register(c, body)
    case Userinfo(auth) => Proxy.UserinfoResponse(c, auth, outcome)
    case Options(_) => Preflight()
  }

  /** A request that makes no upstream call is answered the same whatever upstream would have said. */
  lemma NoCallNoDependence(c: OAuthRouterConfig, req: Request, u1: Upstream, u2: Upstream)
    requires UpstreamCall(c, req).None?
    ensures Handle(c, req, u1) == Handle(c, req, u2)
  {
    if req.Userinfo? {
      Proxy.UserinfoRejectsBeforeCall(c, req.authorization, u1, u2);
    }
  }

  /** A call that fails at the network level is never reported as a success: it becomes a 502. */
  lemma NetworkFailureIs502(c: OAuthRouterConfig, req: Request, message: string)
    requires UpstreamCall(c, req).Some?
    ensures Handle(c, req, NetworkError(message)).status == 502
  {
  }

  /** Where a call is made, an upstream reply comes back with its status and body unchanged. */
  lemma ReplyRelayed(c: OAuthRouterConfig, req: Request, status: int, content: seq<byte>)
    requires UpstreamCall(c, req).Some?
    ensures Handle(c, req, Reply(status, content)) == Response(status, map[], RawJson(content))
  {
  }

  /** Registration (both outcomes) and every preflight allow any origin. */
  lemma BrowserFacingAllowAnyOrigin(c: OAuthRouterConfig, req: Request, outcome: Upstream)
    requires req.Register? || req.Options?
    ensures Handle(c, req, outcome).Header("Access-Control-Allow-Origin") == Some("*")
  {
  }
}

=== FILE: text.dfy ===
/**
 * String operations: a case-sensitive prefix test and a join with a one-character
 * separator, which the handlers use, and a split on one character, which models how
 * the receiving side reads a query string back. `Join` and `Split` are inverse to
 * each other (lemmas `JoinSplit` and `SplitJoin`).
 */
module Text {

  /** `s` begins with `prefix`, compared character by character (case-sensitive). */
  predicate StartsWith(s: string, prefix: string) {
    |prefix| <= |s| && s[..|prefix|] == prefix
  }

  /** No piece contains the separator. */
  predicate SeparatorFree(parts: seq<string>, sep: char) {
    forall i :: 0 <= i < |parts| ==> sep !in parts[i]
  }

  /** The parts with `sep` between neighbours; the empty list joins to the empty string. */
  function Join(parts: seq<string>, sep: char): (r: string)
    ensures |parts| == 0 ==> r == ""
    ensures |parts| == 1 ==> r == parts[0]
    decreases |parts|
  {
    if |parts| == 0 then ""
    else if |parts| == 1 then parts[0]
    else parts[0] + [sep] + Join(parts[1..], sep)
  }

  /** The maximal separator-free pieces of `s`, always at least one (the empty string gives one empty piece). */
  function Split(s: string, sep: char): (parts: seq<string>)
    ensures |parts| >= 1
    decreases |s|
  {
    if |s| == 0 then [""]
    else if s[0] == sep then [""] + Split(s[1..], sep)
    else
      var rest := Split(s[1..], sep);
      [[s[0]] + rest[0]] + rest[1..]
  }

  /** A string without the separator splits into itself alone. */
  lemma {:induction false} SplitNoSeparator(s: string, sep: char)
    requires sep !in s
    ensures Split(s, sep) == [s]
    decreases |s|
  {
    if |s| > 0 {
      assert sep !in s[1..];
      SplitNoSeparator(s[1..], sep);
      assert [s[0]] + s[1..] == s;
    }
  }

  /** Splitting `a + sep + rest` with a separator-free `a` peels off `a` as the first piece. */
  lemma {:induction false} SplitCons(a: string, rest: string, sep: char)
    requires sep !in a
    ensures Split(a + [sep] + rest, sep) == [a] + Split(rest, sep)
    decreases |a|
  {
    var s := a + [sep] + rest;
    if |a| == 0 {
      assert s[0] == sep && s[1..] == rest;
    } else {
      assert s[0] == a[0] && s[1..] == a[1..] + [sep] + rest;
      assert sep !in a[1..];
      SplitCons(a[1..], rest, sep);
      assert [a[0]] + a[1..] == a;
    }
  }

  /** Splitting a join of separator-free pieces gives the pieces back. */
  lemma {:induction false} SplitJoin(parts: seq<string>, sep: char)
    requires |parts| >= 1
    requires SeparatorFree(parts, sep)
    ensures Split(Join(parts, sep), sep) == parts
    decreases |parts|
  {
    if |parts| == 1 {
      SplitNoSeparator(parts[0], sep);
    } else {
      assert sep !in parts[0];
      SplitCons(parts[0], Join(parts[1..], sep), sep);
      SplitJoin(parts[1..], sep);
      assert [parts[0]] + parts[1..] == parts;
    }
  }

  /** Joining the pieces of a split gives the string back, and no piece holds the separator. */
  lemma {:induction false} JoinSplit(s: string, sep: char)
    ensures Join(Split(s, sep), sep) == s
    ensures SeparatorFree(Split(s, sep), sep)
    decreases |s|
  {
    if |s| > 0 {
      var rest := Split(s[1..], sep);
      JoinSplit(s[1..], sep);
      assert s == [s[0]] + s[1..];
      if s[0] == sep {
        assert Split(s, sep) == [""] + rest;
        assert ([""] + rest)[1..] == rest;
      } else {
        var parts := Split(s, sep);
        assert parts == [[s[0]] + rest[0]] + rest[1..];
        if |rest| == 1 {
          assert Join(parts, sep) == [s[0]] + rest[0];
        } else {
          assert parts[1..] == rest[1..];
          assert Join(rest, sep) == rest[0] + [sep] + Join(rest[1..], sep);
          assert Join(parts, sep) == ([s[0]] + rest[0]) + [sep] + Join(rest[1..], sep);
        }
        forall i | 0 <= i < |parts|
          ensures sep !in parts[i]
        {
          if i > 0 {
            assert parts[i] == rest[i];
          }
        }
      }
    }
  }
}

=== FILE: wrappers.dfy ===
/** The optional-value datatype shared by the model. */
module Wrappers {

  /** A value that may be absent: a Python `None` or a failed lookup. */
  datatype Option<+T> = None | Some(value: T)
}
